=== FILE: README.md ===
# qwik-query bindings: deferred-reference codec and observer bridge

This project models the two pieces of logic in the Qwik bindings for TanStack
Query that carry real behaviour, and proves properties of them in Dafny.

- **The deferred-reference codec** (`packages/qwik-query/src/utils.ts`).
  `qrlify` walks a value tree and replaces every function with a deferred
  reference (a QRL: a function that carries a callable `resolve`). `deqrlify`
  resolves every deferred reference back. It decodes arrays and plain objects
  child by child, keeps index and key correspondence, and rejects as soon as any
  resolution rejects.
- **The observer bridge** (`packages/qwik-query/src/useBaseQuery.ts`). This
  covers:
  - `hasPage`, the three-valued next/previous-page rule;
  - `patchAndAssignResult`, which sets the pagination flags for the infinite
    variant and writes the tracked or raw result into the store;
  - the option defaulting, observer-class selection and optimistic priming of
    `createQueryObserver`;
  - the mount effect and the option-forwarding effect of `useBaseQuery`.

Files:

- `values.dfy` has two modules. `Wrappers` holds `Option`. `Values` holds the
  JavaScript value tree `Value`: `undefined`, `null`, booleans, numbers,
  strings, arrays, plain objects as `map<string, Value>`, and functions. A
  function is either `Plain` or a deferred reference `Qrl(chunk)`. `Values` also
  defines truthiness, property reads and paths into a tree.
- `codec.dfy` (module `Codec`) holds `qrlify` as written (`Qrlify`), the
  corrected encoder (`QrlifyFixed`), `deqrlify` (`Deqrlify`) and the lemmas
  about them.
- `base_query.dfy` (module `BaseQuery`) holds the bridge. The query engine is
  the record `Engine`, whose fields are opaque functions: `defaultQueryOptions`,
  `getOptimisticResult`, `trackResult` and the page-param callbacks. The
  reactive store is the record `Store(result, options)`, and every transition
  returns the new store.

How a deferred reference resolves is up to Qwik's `qrl` runtime. `Deqrlify`
therefore takes the resolution procedure as a parameter, of type `Resolver`.
`RecoverChunk` is the intended resolution, the one the declared `DeQRLify` type assumes: a reference yields the
function it was built from. `Promise.all` runs its children concurrently, and
the first rejection in time wins. The model evaluates every child and keeps each
outcome at its own index or key. A rejection carries the set of all reasons
that could be reported first.

## Model

| member | source | states |
|---|---|---|
| `Codec.Qrlify` | packages/qwik-query/src/utils.ts:8-28 | As written: a function becomes a deferred reference built from it. Scalars, `undefined` and `null` come back unchanged. An array gives an array of the same length whose element i is the encoding of element i. Every non-array object gives `{}`. |
| `Codec.QrlifyFixed` | packages/qwik-query/src/utils.ts:8-27 | The corrected encoder. It behaves like `qrlify` on functions, scalars and arrays, but a plain object keeps exactly its key set and each value is encoded, as the declared `QRLify<T>` type promises. |
| `Codec.Deqrlify` | packages/qwik-query/src/utils.ts:30-55 | A deferred reference settles to exactly what its `resolve` yields, and a rejection carries its reason. Scalars, `null` and plain functions come back unchanged. A decoded array keeps its length, and a decoded object keeps its key set. Every rejection carries at least one reason. |
| `Codec.DeqrlifyItems` | packages/qwik-query/src/utils.ts:44-48 | An array decodes iff every element decodes, and then each element is decoded in its own position. A failed array reports exactly the union of its elements' reasons. |
| `Codec.DeqrlifyFields` | packages/qwik-query/src/utils.ts:50-54 | An object decodes iff every field decodes, and then each field is decoded under its own key. A failed object reports exactly the union of its fields' reasons. |
| `Codec.AllItems` | packages/qwik-query/src/utils.ts:44-48 | `Promise.all` over array children. It gives the values in order iff every child succeeded, and otherwise rejects with exactly the union of the children's reasons. |
| `Codec.AllFields` | packages/qwik-query/src/utils.ts:50-54 | `Promise.all` over object entries followed by `Object.fromEntries`. It gives an object with the same keys iff every entry succeeded, and otherwise rejects with exactly the union of the entries' reasons. |
| `Codec.DeqrlifyIdentityOnRefFree` | packages/qwik-query/src/utils.ts:41-54 | Decoding is the identity on every tree that holds no deferred reference, at any depth. |
| `Codec.QrlifyFixedDefersAll` | packages/qwik-query/src/utils.ts:9-14 | After encoding, no plain function is left anywhere in the tree; every function is a deferred reference. |
| `Codec.QrlifyFixedIdentityOnFunctionFree` | packages/qwik-query/src/utils.ts:16-27 | Encoding changes nothing in a tree without functions. |
| `Codec.RoundTripFixed` | packages/qwik-query/src/utils.ts:8-55 | For every tree v, decoding the corrected encoding of v gives back v when references resolve to the function they were built from. |
| `Codec.RoundTripFunctionFree` | packages/qwik-query/src/utils.ts:8-55 | For every function-free tree v and every resolution procedure, decoding the corrected encoding gives back v. |
| `Codec.QrlifyAgreesWithFixedIff` | packages/qwik-query/src/utils.ts:23-27 | The encoder as written equals the corrected one on a tree iff every object in that tree is empty. |
| `Codec.QrlifyLosesObjectKeys` | packages/qwik-query/src/utils.ts:23-27 | As written, any non-empty object decodes back to `{}` after encoding, whatever the resolution, so the round trip fails. |
| `Codec.FailFast` | packages/qwik-query/src/utils.ts:44-54 | Decoding rejects with reason e iff some path into the tree reaches a deferred reference whose resolution rejects with e. |
| `Codec.DeqrlifyOkIffNoRejection` | packages/qwik-query/src/utils.ts:44-54 | Any failure fails the whole: decoding succeeds iff no nested deferred reference rejects. |
| `BaseQuery.HasPage` | packages/qwik-query/src/useBaseQuery.ts:180-202 | The result is indeterminate (`undefined`, never `false`) iff the direction's callback is falsy or `pages` is not an array. Otherwise it is true iff the callback returns a page param that is not `undefined`, `null` or `false`. The callback gets the first page for PREV and the last page for NEXT, and the whole list; for an empty list it is still called, with `undefined`. A truthy callback that is not a function is harmless unless `pages` is an array. |
| `BaseQuery.PagePresentVersusTruthy` | packages/qwik-query/src/useBaseQuery.ts:195-199 | The page-param rule is not truthiness: `0` and `''` are exactly the falsy values that still count as present. |
| `BaseQuery.PatchFlags` | packages/qwik-query/src/useBaseQuery.ts:167-174 | The infinite variant adds exactly `hasPreviousPage` and `hasNextPage`, taken from `hasPage` on `result.data.pages`, and keeps every other field. The PREV flag reads the options as the call starts. The NEXT flag reads the options as they stand once the call resumes after its first `await`. The base variant leaves the result untouched. |
| `BaseQuery.PatchFlagsIdempotent` | packages/qwik-query/src/useBaseQuery.ts:167-174 | Patching a patched result changes nothing. |
| `BaseQuery.PatchAndAssignResult` | packages/qwik-query/src/useBaseQuery.ts:160-178 | When the patch can be computed, the store's result becomes the patched result, with the NEXT flag read from the options as they stand when the call resumes. It goes through the observer's tracking when `notifyOnChangeProps` is falsy and is stored raw otherwise. When patching throws (unreadable `result.data`, unreadable options, or a page-param callback that is a truthy non-function while the pages form an array), the store is not written. The store's options never change. |
| `BaseQuery.ForceOptions` | packages/qwik-query/src/useBaseQuery.ts:129-131 | Defaulted options always have `_optimisticResults = 'optimistic'` and `structuralSharing = false`, whatever the caller asked for. Every other defaulted option is kept, and no other key is added. |
| `BaseQuery.CreateQueryObserver` | packages/qwik-query/src/useBaseQuery.ts:122-158 | The observer is a `QueryObserver` iff the type is base, and an `InfiniteQueryObserver` iff it is infinite. It is built with the defaulted options, with both options forced and every other default kept. When the store has no result, the optimistic result is patched and written; when that patch throws, the store stays without a result. For the base variant this happens before subscribing. The infinite variant's priming call is suspended at its first `await`, so its write lands later and its NEXT flag reads the options the caller stored meanwhile. A store that already had a result is left as it was. |
| `BaseQuery.Replay` | packages/qwik-query/src/useBaseQuery.ts:145-155 | Applying the subscription callback to any sequence of emissions never changes the store's options. A store with a result keeps one, and a store receives one once any emission can be patched. |
| `BaseQuery.LastEmissionWins` | packages/qwik-query/src/useBaseQuery.ts:145-155 | When the last emission of a sequence can be patched, the store's result is the tracked or raw patch of that emission, whatever came before. |
| `BaseQuery.DroppedEmissionKeepsStore` | packages/qwik-query/src/useBaseQuery.ts:160-178 | An emission whose patch throws leaves the store exactly as the earlier emissions left it, even with an outdated result. |
| `BaseQuery.InitialStore` | packages/qwik-query/src/useBaseQuery.ts:49-58 | The store starts with the caller's options. It has a result only when the hydrated state is truthy, and then it is the cache state for `options.queryKey`, or `[]` when that is falsy. A falsy state (`undefined`, `null`, ...) gives no result. |
| `BaseQuery.Mount` | packages/qwik-query/src/useBaseQuery.ts:66-84 | The mount effect rejects iff decoding the store's options rejects, with the same reasons. On success the observer gets the defaulted decoded options. The store's options become `{}` with the encoder as written (line 74), and the re-encoded observer options with the corrected encoder. The store keeps a result it already had. Otherwise it gets the primed result whenever that can be patched, with the paginated NEXT flag read from the options just stored, and stays without a result when the priming patch throws. |
| `BaseQuery.AsWrittenMountForwardsEmptyOptions` | packages/qwik-query/src/useBaseQuery.ts:66-91 | With the encoder as written, every successful mount stores `{}`. The option-change effect then passes `{}` to `setOptions`, for every caller option and every resolution, although the observer was built with the forced options. Every later `hasPage` is indeterminate. |
| `BaseQuery.AsWrittenPrimingLosesNextPage` | packages/qwik-query/src/useBaseQuery.ts:66-178 | With the encoder as written, the paginated priming result still takes its PREV flag from the caller's options. Its `hasNextPage` is always `undefined`, because the NEXT flag reads the `{}` that line 74 stored before the call resumed. |
| `BaseQuery.MountedOptionsRoundTrip` | packages/qwik-query/src/useBaseQuery.ts:66-91 | With the corrected encoder, and when references resolve to the function they were built from (`RecoverChunk`), the stored options decode back to exactly the observer's options. The option-change effect that the store write triggers then hands the observer its own options again. |
| `BaseQuery.QrlifyFixedKeepsPageParamsCallable` | packages/qwik-query/src/useBaseQuery.ts:167-173 | Re-encoding with the corrected encoder keeps page-param options falsy or callable. |
| `BaseQuery.EmissionsPatchableAfterMount` | packages/qwik-query/src/useBaseQuery.ts:145-178 | After a mount with either encoder, when the observer's page-param options are callable, every emission whose `data` can be read is patched and stored, never dropped. |
| `BaseQuery.Lifecycle` | packages/qwik-query/src/useBaseQuery.ts:49-155 | Starting from the initial store, mounting, then receiving emissions. With no emissions and no hydrated result (no truthy state, or a state the cache lookup did not find), the store holds the tracked or raw patch of the observer's optimistic result, with PREV read from the caller's options and NEXT from the options the mount stored. With truthy hydrated state that was found, it keeps that state. After emissions whose last one can be patched, it holds that emission's patch. |
| `BaseQuery.OptionsChanged` | packages/qwik-query/src/useBaseQuery.ts:86-92 | Nothing happens iff no observer exists yet. Otherwise the store's options are decoded and forwarded to `setOptions`, or a rejection is returned. The caller's options are used only when the store's options are falsy. |
| `BaseQuery.ForwardOnlyAfterMount` | packages/qwik-query/src/useBaseQuery.ts:86-91 | After a failed mount, no option change is forwarded. After a successful mount, a change is forwarded iff its options decode. |

## Left out

- `queryClientState`, `hydrate` and `dehydrate` call into the query library. `InitialStore` takes the hydrated cache lookup as the parameter `getQueryState`.
- The query engine is not modelled: `QueryClient`, the observer internals, `defaultQueryOptions`, `getOptimisticResult`, `trackResult`, `subscribe`, `setOptions`. Those operations are opaque fields of `Engine`. `setOptions` is an outcome (`Forwarded`) and not a state change.
- The Qwik runtime is not modelled: `useStore`, `useSignal`, `useVisibleTask$` scheduling and `cleanup`, `noSerialize`, and how a `qrl` resolves. `noSerialize` is the identity here. Resolution is the `Resolver` parameter.
- `Math.random` makes the symbol name passed to `qrl` random. That name is not modelled, so a deferred reference records only the function it wraps.
- The `console.log` in `hasPage` is I/O and is not modelled.
- `notifyManager.batchCalls` coalesces bursts of notifications, which is scheduling. `Replay` applies whatever sequence of emissions is actually delivered.
- Async interleaving is modelled at one point only. A paginated `patchAndAssignResult` re-reads `store.options` for the NEXT flag after awaiting the PREV flag. For the priming call that read always follows the mount effect's write at line 74, and the model passes those options as `resumed`. Every other operation runs as one sequential step.
- `BaseQuery.Lifecycle` applies the paginated priming write before any emission. In the original that write lands after `subscribe` (line 145) and after at least two awaits. An emission delivered earlier could therefore be overwritten by the primed result.
- `BaseQuery.PatchFlags` returns a new result map. The original sets `hasPreviousPage` and `hasNextPage` on the observer's own result object (lines 168 and 173) and then stores `trackResult` of that same object. When PREV succeeds and NEXT throws, the engine's result object is left half-patched even though the store is not written. The engine's objects are outside the model.
- `BaseQuery.MountedOptionsRoundTrip` holds only under `RecoverChunk`, where a reference resolves to the function it was built from. `qrl(value, Math.random().toString(16))` (`utils.ts:10-13`) hands resolution to Qwik's runtime, which is not modelled, so this premise is assumed rather than shown. Under a resolver that rejects, decoding the stored options rejects.
- The original has no liveness guard after unmount, so none is modelled. Unsubscribing at unmount is a call into the query library.
- Numbers are integers, so `NaN`, `-0` and fractions are not modelled, and neither are `bigint` and `symbol` values. Truthiness covers the remaining falsy values.
- Objects are plain objects. A tree holds their own enumerable string keys without order. Getters and prototypes are not modelled, and neither are class instances (which `Object.entries` treats as plain objects).
- A function counts as a deferred reference only when it is a `Qrl`. A plain function that happens to carry a callable `resolve` property is not modelled.
- Cyclic structures cannot be expressed as a Dafny datatype, so the stack overflow the original would hit on them is not modelled.
- `BaseQuery.HasPage` requires a truthy page-param option to be a function whenever `pages` is an array, and `BaseQuery.PatchFlags` requires `result.data` to be readable. The original throws in those cases. That throw happens inside the un-awaited `patchAndAssignResult` and rejects it unhandled. `BaseQuery.PatchAndAssignResult` models the outcome: the store is not written.
- `BaseQuery.LastEmissionWins` holds only when emissions are applied one after another. `patchAndAssignResult` is async and never awaited (lines 136 and 147), and for the infinite variant it awaits twice before writing (lines 168, 173, 175). Overlapping emissions can therefore write out of order, leaving an older result in the store. Also, an emission whose patch throws never writes (`BaseQuery.DroppedEmissionKeepsStore`), so the store keeps the earlier result.
- `Engine` functions are total. Exceptions thrown by page-param callbacks, by option defaulting or by observer construction are not modelled.
- Ordering of rejections: the first rejection in time is not modelled. `Codec.Deqrlify` keeps the set of all reasons that could be reported first.
- `packages/qwik-query/src/types.ts` holds only type declarations. It served as a guide to the shape of the value tree.
- `packages/react-query-devtools/vitest.config.ts` is test configuration, with no behaviour to model.

## Findings

| source | as written | input that shows it | evidently intended | confidence | as-written member | corrected member |
|---|---|---|---|---|---|---|
| packages/qwik-query/src/utils.ts:23-27 | `Object.entries` is applied to a freshly created arrow function, not to `value`. The entries list is therefore always empty, and every non-array object encodes to `{}`. | `{queryKey: ['x']}` encodes to `{}` and decodes back to `{}`. Through `useBaseQuery.ts:74`, every successful mount stores `{}` as the options. That write re-runs the option-change effect (`useBaseQuery.ts:86-91`). `{}` is truthy, so the caller's options are not used, and `setOptions({})` leaves the observer without a query key, a query function or the forced options. `hasPage` never sees a page-param callback again. Even the primed result of an infinite query reads its NEXT flag from that `{}`, so its `hasNextPage` is always `undefined`. | Map each own entry `[key, v]` of `value` to `[key, qrlify(v)]`. The key set stays the same, as the declared type `QRLify<T>` (`types.ts:20-22`) says. The round trip of the corrected encoder also assumes that each reference resolves to the function it was built from (`RecoverChunk`). | high; not executed | `Codec.Qrlify`, `Codec.QrlifyLosesObjectKeys`, `BaseQuery.AsWrittenMountForwardsEmptyOptions`, `BaseQuery.AsWrittenPrimingLosesNextPage` | `Codec.QrlifyFixed`, `Codec.RoundTripFixed`, `BaseQuery.MountedOptionsRoundTrip` |

`BaseQuery.Mount` takes the encoder as a parameter (`AsWritten` or `Corrected`). `BaseQuery.Lifecycle`, `BaseQuery.EmissionsPatchableAfterMount` and `BaseQuery.ForwardOnlyAfterMount` hold for both encoders.

=== FILE: base_query.dfy ===
/**
 * The observer bridge of the query bindings: the pagination-flag rule, the
 * result patching applied to every observer emission, the option defaulting
 * and optimistic priming done when the observer is created, the mount effect
 * and the option-forwarding effect.
 *
 * The query engine (the observers, the client's option defaulting, result
 * tracking and the page-param callbacks) is consumed through `Engine`, a record
 * of opaque functions. The reactive store is the record `Store`, and every
 * transition returns the updated store instead of mutating it.
 */
module BaseQuery {
  import opened Wrappers
  import opened Values
  import opened Codec

  /** Which observer a bridge drives: a single-page or a paginated query. */
  datatype ObserverType = Base | Infinite

  /** The engine's observer classes. */
  datatype ObserverClass = QueryObserver | InfiniteQueryObserver

  /** A constructed observer: its class and the options it was built with. */
  datatype Observer = Observer(cls: ObserverClass, options: Fields)

  /** Which end of the page list a pagination flag looks at. */
  datatype Direction = Prev | Next

  /** The reactive store: the last result (absent before the first one) and the
      current options, in their deferred form. */
  datatype Store = Store(result: Option<Fields>, options: Value)

  /** The query engine, as opaque operations. `callPageParam(f, page, pages)`
      calls (and awaits) a page-param callback. */
  datatype Engine = Engine(
    defaultQueryOptions: Value -> Fields,
    getOptimisticResult: (Observer, Fields) -> Fields,
    trackResult: (Observer, Fields) -> Fields,
    callPageParam: (Callable, Value, Value) -> Value)

  /** The observer class a bridge constructs for its observer type. */
  function SelectObserverClass(t: ObserverType): ObserverClass {
    if t == Base then QueryObserver else InfiniteQueryObserver
  }

  /** The option holding the page-param callback of a direction. */
  function PageParamKey(d: Direction): string {
    if d == Prev then "getPreviousPageParam" else "getNextPageParam"
  }

  /** The callback slot is empty (falsy) or holds a function: the declared type
      of the option; a truthy non-function would throw when called. */
  predicate CallableOrFalsy(v: Value) {
    !Truthy(v) || v.Func?
  }

  /** Both page-param options of `options` can be read and called. */
  predicate PageParamsCallable(options: Value) {
    && CanReadProps(options)
    && CallableOrFalsy(GetProp(options, PageParamKey(Prev)))
    && CallableOrFalsy(GetProp(options, PageParamKey(Next)))
  }

  /** The page a direction looks at: the first for `Prev`, the last for `Next`;
      reading either end of an empty list gives `undefined`. */
  function EdgePage(pages: seq<Value>, d: Direction): Value {
    if |pages| == 0 then Undef
    else if d == Prev then pages[0]
    else pages[|pages| - 1]
  }

  /** A page param counts as present unless it is `undefined`, `null` or `false`. */
  predicate PagePresent(p: Value) {
    !p.Undef? && !p.Null? && p != Bool(false)
  }

  /** `hasPage`: indeterminate (`None`) when the direction's callback is absent
      or the page list is not an array; otherwise whether the callback, called
      with the edge page and the whole list, returned a present page param. A
      truthy callback that is not a function throws, but only once it is called. */
  function HasPage(engine: Engine, options: Value, pages: Value, d: Direction): (r: Option<bool>)
    requires CanReadProps(options)
    requires pages.Arr? ==> CallableOrFalsy(GetProp(options, PageParamKey(d)))
    ensures r.None? <==> !Truthy(GetProp(options, PageParamKey(d))) || !pages.Arr?
    ensures r.Some? ==>
              (r.value <==> PagePresent(engine.callPageParam(GetProp(options, PageParamKey(d)).fn,
                                                             EdgePage(pages.items, d), pages)))
  {
    var getPageParam := GetProp(options, PageParamKey(d));
    if Truthy(getPageParam) && pages.Arr? then
      var pageParam := engine.callPageParam(getPageParam.fn, EdgePage(pages.items, d), pages);
      Some(PagePresent(pageParam))
    else
      None
  }

  /** How a three-valued flag is written into a result object. */
  function FlagValue(o: Option<bool>): Value {
    match o
    case None => Undef
    case Some(b) => Bool(b)
  }

  /** `result.data.pages` is read without a guard: `data` must be there and be
      neither `undefined` nor `null`. */
  predicate DataReadable(result: Fields) {
    "data" in result && CanReadProps(result["data"])
  }

  /** `result.data.pages`. */
  function Pages(result: Fields): Value
    requires DataReadable(result)
  {
    GetProp(result["data"], "pages")
  }

  /** The result fields `patchAndAssignResult` overwrites for the paginated variant. */
  const FlagKeys: set<string> := {"hasPreviousPage", "hasNextPage"}

  /** `patchAndAssignResult` gets through the pagination patch without
      throwing: trivially for the base variant; for the paginated one,
      `result.data` can be read, the options each `hasPage` call reads can be
      read, and when the pages form an array neither page-param callback is a
      truthy non-function. The PREV flag reads `options`; the NEXT flag, computed
      after the first `await`, reads `resumed`, the store's options by then. */
  predicate CanPatch(t: ObserverType, options: Value, resumed: Value, result: Fields) {
    t == Infinite ==>
      && DataReadable(result)
      && CanReadProps(options)
      && CanReadProps(resumed)
      && (Pages(result).Arr? ==>
            && CallableOrFalsy(GetProp(options, PageParamKey(Prev)))
            && CallableOrFalsy(GetProp(resumed, PageParamKey(Next))))
  }

  /** The pagination patch: the paginated variant sets the PREV flag from
      `hasPage` on `options`, the NEXT flag from `hasPage` on `resumed`, and
      keeps every other field; the base variant changes nothing. */
  function PatchFlags(t: ObserverType, engine: Engine, options: Value, resumed: Value, result: Fields): (p: Fields)
    requires CanPatch(t, options, resumed, result)
    ensures t == Base ==> p == result
    ensures t == Infinite ==>
              && p.Keys == result.Keys + FlagKeys
              && p["hasPreviousPage"] == FlagValue(HasPage(engine, options, Pages(result), Prev))
              && p["hasNextPage"] == FlagValue(HasPage(engine, resumed, Pages(result), Next))
              && forall k :: k in result && k !in FlagKeys ==> p[k] == result[k]
  {
    if t == Infinite then
      var pages := Pages(result);
      result["hasPreviousPage" := FlagValue(HasPage(engine, options, pages, Prev))]
            ["hasNextPage" := FlagValue(HasPage(engine, resumed, pages, Next))]
    else
      result
  }

  /** What the store receives for a patched result: the observer's tracking
      wrapper when no `notifyOnChangeProps` is set, the result itself otherwise. */
  function Stored(engine: Engine, observer: Observer, defaulted: Fields, patched: Fields): Fields {
    if !Truthy(GetProp(Obj(defaulted), "notifyOnChangeProps"))
    then engine.trackResult(observer, patched)
    else patched
  }

  /** `patchAndAssignResult`: patches the flags, the NEXT one against the
      store's options as they stand once the call resumes (`resumed`), then
      stores the result. When patching throws, the un-awaited call only rejects
      and the store is not written. Only the store's `result` ever changes. */
  function PatchAndAssignResult(t: ObserverType, engine: Engine, observer: Observer,
                                store: Store, resumed: Value, result: Fields, defaulted: Fields): (s: Store)
    ensures s.options == store.options
    ensures !CanPatch(t, store.options, resumed, result) ==> s == store
    ensures CanPatch(t, store.options, resumed, result) && !Truthy(GetProp(Obj(defaulted), "notifyOnChangeProps")) ==>
              s.result == Some(engine.trackResult(observer, PatchFlags(t, engine, store.options, resumed, result)))
    ensures CanPatch(t, store.options, resumed, result) && Truthy(GetProp(Obj(defaulted), "notifyOnChangeProps")) ==>
              s.result == Some(PatchFlags(t, engine, store.options, resumed, result))
  {
    if CanPatch(t, store.options, resumed, result) then
      store.(result := Some(Stored(engine, observer, defaulted, PatchFlags(t, engine, store.options, resumed, result))))
    else
      store
  }

  /** The two options the bridge forces on every observer. */
  const ForcedKeys: set<string> := {"_optimisticResults", "structuralSharing"}

  /** The bridge's defaulting policy on top of the client's defaults: optimistic
      results forced on and structural sharing forced off, whatever was asked
      for; every other defaulted option kept. */
  function ForceOptions(d: Fields): (r: Fields)
    ensures r.Keys == d.Keys + ForcedKeys
    ensures r["_optimisticResults"] == Str("optimistic")
    ensures r["structuralSharing"] == Bool(false)
    ensures forall k :: k in d && k !in ForcedKeys ==> r[k] == d[k]
  {
    d["_optimisticResults" := Str("optimistic")]["structuralSharing" := Bool(false)]
  }

  /** The options an observer is constructed with. */
  function DefaultedOptions(engine: Engine, options: Value): Fields {
    ForceOptions(engine.defaultQueryOptions(options))
  }

  /** What `createQueryObserver` hands back. */
  datatype Created = Created(observer: Observer, store: Store, defaultedOptions: Fields)

  /** The optimistic result the observer of type `t` would compute for `options`. */
  function OptimisticResult(engine: Engine, t: ObserverType, options: Value): Fields {
    var defaulted := DefaultedOptions(engine, options);
    engine.getOptimisticResult(Observer(SelectObserverClass(t), defaulted), defaulted)
  }

  /** `createQueryObserver`: selects the observer class, defaults the options,
      constructs the observer and, only when the store holds no result yet,
      writes the patched optimistic result into it. For the base variant that
      happens before subscribing; the paginated variant's priming call is
      suspended at its first `await` and computes its NEXT flag from `resumed`,
      the store's options once the caller has moved on. */
  function CreateQueryObserver(engine: Engine, store: Store, options: Value, t: ObserverType,
                               resumed: Value): (c: Created)
    ensures c.observer.cls == QueryObserver <==> t == Base
    ensures c.observer.cls == InfiniteQueryObserver <==> t == Infinite
    ensures c.observer.options == c.defaultedOptions
    ensures ForcedKeys <= c.defaultedOptions.Keys
    ensures c.defaultedOptions["_optimisticResults"] == Str("optimistic")
    ensures c.defaultedOptions["structuralSharing"] == Bool(false)
    ensures forall k :: k in engine.defaultQueryOptions(options) && k !in ForcedKeys ==>
              k in c.defaultedOptions && c.defaultedOptions[k] == engine.defaultQueryOptions(options)[k]
    ensures c.store.options == store.options
    ensures store.result.Some? ==> c.store == store
    ensures store.result.None? && CanPatch(t, store.options, resumed, OptimisticResult(engine, t, options)) ==>
              c.store.result == Some(Stored(engine, c.observer, c.defaultedOptions,
                                            PatchFlags(t, engine, store.options, resumed, OptimisticResult(engine, t, options))))
    ensures store.result.None? && !CanPatch(t, store.options, resumed, OptimisticResult(engine, t, options)) ==>
              c.store.result.None?
  {
    var defaulted := DefaultedOptions(engine, options);
    var observer := Observer(SelectObserverClass(t), defaulted);
    var primed :=
      if store.result.None? then
        PatchAndAssignResult(t, engine, observer, store, resumed, engine.getOptimisticResult(observer, defaulted), defaulted)
      else
        store;
    Created(observer, primed, defaulted)
  }

  /** The subscription callback applied to every emission of `results`, in
      emission order. */
  function Replay(t: ObserverType, engine: Engine, observer: Observer, defaulted: Fields,
                  store: Store, results: seq<Fields>): (s: Store)
    ensures s.options == store.options
    ensures results == [] ==> s == store
    ensures store.result.Some? ==> s.result.Some?
    ensures (exists i :: 0 <= i < |results| && CanPatch(t, store.options, store.options, results[i])) ==> s.result.Some?
    decreases |results|
  {
    if results == [] then store
    else
      var next := PatchAndAssignResult(t, engine, observer, store, store.options, results[0], defaulted);
      assert forall i :: 1 <= i < |results| ==> results[1..][i - 1] == results[i];
      Replay(t, engine, observer, defaulted, next, results[1..])
  }

  /** After a burst of emissions whose last one can be patched, the store holds
      exactly what the callback makes of that last one; earlier emissions leave
      no trace. */
  lemma {:induction false} LastEmissionWins(t: ObserverType, engine: Engine, observer: Observer,
                                            defaulted: Fields, store: Store, results: seq<Fields>)
    requires results != []
    requires CanPatch(t, store.options, store.options, results[|results| - 1])
    ensures Replay(t, engine, observer, defaulted, store, results).result
         == Some(Stored(engine, observer, defaulted, PatchFlags(t, engine, store.options, store.options, results[|results| - 1])))
    decreases |results|
  {
    var next := PatchAndAssignResult(t, engine, observer, store, store.options, results[0], defaulted);
    if |results| > 1 {
      assert results[1..][|results| - 2] == results[|results| - 1];
      LastEmissionWins(t, engine, observer, defaulted, next, results[1..]);
    }
  }

  /** An emission whose patch throws changes nothing: the store keeps whatever
      the earlier emissions left, however stale. */
  lemma {:induction false} DroppedEmissionKeepsStore(t: ObserverType, engine: Engine, observer: Observer,
                                                     defaulted: Fields, store: Store, results: seq<Fields>,
                                                     dropped: Fields)
    requires !CanPatch(t, store.options, store.options, dropped)
    ensures Replay(t, engine, observer, defaulted, store, results + [dropped])
         == Replay(t, engine, observer, defaulted, store, results)
    decreases |results|
  {
    if results == [] {
      assert [] + [dropped] == [dropped];
    } else {
      var next := PatchAndAssignResult(t, engine, observer, store, store.options, results[0], defaulted);
      assert (results + [dropped])[1..] == results[1..] + [dropped];
      DroppedEmissionKeepsStore(t, engine, observer, defaulted, next, results[1..], dropped);
    }
  }

  /** Patching is idempotent: a result patched once is a fixed point, since
      `data` is never a flag field and the flags are recomputed from it. */
  lemma PatchFlagsIdempotent(t: ObserverType, engine: Engine, options: Value, resumed: Value, result: Fields)
    requires CanPatch(t, options, resumed, result)
    ensures CanPatch(t, options, resumed, PatchFlags(t, engine, options, resumed, result))
    ensures PatchFlags(t, engine, options, resumed, PatchFlags(t, engine, options, resumed, result))
         == PatchFlags(t, engine, options, resumed, result)
  {
    if t == Infinite {
      var p := PatchFlags(t, engine, options, resumed, result);
      assert p["data"] == result["data"];
      assert Pages(p) == Pages(result);
      var q := PatchFlags(t, engine, options, resumed, p);
      assert q.Keys == p.Keys;
    }
  }

  /** The page-param rule is not truthiness: exactly `0` and `''` are falsy yet
      count as a present page param. */
  lemma PagePresentVersusTruthy(p: Value)
    ensures PagePresent(p) && !Truthy(p) <==> p == Num(0) || p == Str("")
    ensures Truthy(p) ==> PagePresent(p)
  {
  }

  /** `options.queryKey || []`. */
  function QueryKey(options: Value): Value
    requires CanReadProps(options)
  {
    var k := GetProp(options, "queryKey");
    if Truthy(k) then k else Arr([])
  }

  /** The store a bridge starts from: the caller's options, and a result only
      when truthy hydrated state was supplied, namely the hydrated cache's state
      for the query key (`getQueryState` stands for hydrating then looking up). */
  function InitialStore(options: Value, initialState: Value,
                        getQueryState: (Value, Value) -> Option<Fields>): (s: Store)
    requires Truthy(initialState) ==> CanReadProps(options)
    ensures s.options == options
    ensures !Truthy(initialState) ==> s.result.None?
    ensures Truthy(initialState) ==> s.result == getQueryState(initialState, QueryKey(options))
  {
    if Truthy(initialState) then
      Store(getQueryState(initialState, QueryKey(options)), options)
    else
      Store(None, options)
  }

  /** Which encoder the mount effect stores the defaulted options with: `qrlify`
      as the original writes it, or the corrected one. */
  datatype Encoding = AsWritten | Corrected

  /** Encoding a value with the chosen encoder. */
  function Encode(enc: Encoding, v: Value): Value {
    if enc == AsWritten then Qrlify(v) else QrlifyFixed(v)
  }

  /** What the mount effect leaves behind: the primed store and the observer
      it subscribed to, or the rejection of decoding the options. */
  datatype MountOutcome = Mounted(store: Store, observer: Observer) | MountRejected(reasons: set<string>)

  /** The mount effect: decode the store's options, create and subscribe the
      observer, then store the defaulted options back in deferred form. That
      write happens before a suspended paginated priming call resumes, so its
      NEXT flag reads the re-encoded options. */
  function Mount(engine: Engine, resolve: Resolver, t: ObserverType, enc: Encoding, store: Store): (m: MountOutcome)
    ensures m.MountRejected? <==> Deqrlify(resolve, store.options).Err?
    ensures m.MountRejected? ==> m.reasons == Deqrlify(resolve, store.options).reasons
    ensures m.Mounted? ==>
              && m.observer.options == DefaultedOptions(engine, Deqrlify(resolve, store.options).value)
              && (enc == AsWritten ==> m.store.options == Obj(map[]))
              && (enc == Corrected ==> m.store.options == QrlifyFixed(Obj(m.observer.options)))
              && (store.result.Some? ==> m.store.result == store.result)
              && (var optimistic := OptimisticResult(engine, t, Deqrlify(resolve, store.options).value);
                  store.result.None? && CanPatch(t, store.options, m.store.options, optimistic) ==>
                    m.store.result == Some(Stored(engine, m.observer, m.observer.options,
                                                  PatchFlags(t, engine, store.options, m.store.options, optimistic))))
              && (var optimistic := OptimisticResult(engine, t, Deqrlify(resolve, store.options).value);
                  store.result.None? && !CanPatch(t, store.options, m.store.options, optimistic) ==>
                    m.store.result.None?)
  {
    match Deqrlify(resolve, store.options)
    case Err(reasons) => MountRejected(reasons)
    case Ok(options) =>
      var stored := Encode(enc, Obj(DefaultedOptions(engine, options)));
      var c := CreateQueryObserver(engine, store, options, t, stored);
      Mounted(c.store.(options := stored), c.observer)
  }

  /** What the option-change effect does with the observer. */
  datatype Forward = Skipped | Forwarded(options: Value) | ForwardRejected(reasons: set<string>)

  /** The option-change effect: only once an observer exists are the store's
      options (or, were they falsy, the caller's) decoded and passed to
      `setOptions`; before that nothing happens. */
  function OptionsChanged(observer: Option<Observer>, store: Store, options: Value,
                          resolve: Resolver): (r: Forward)
    ensures r.Skipped? <==> observer.None?
    ensures observer.Some? && Truthy(store.options) ==>
              r == (match Deqrlify(resolve, store.options)
                    case Ok(o) => Forwarded(o)
                    case Err(e) => ForwardRejected(e))
    ensures observer.Some? && !Truthy(store.options) ==>
              r == (match Deqrlify(resolve, options)
                    case Ok(o) => Forwarded(o)
                    case Err(e) => ForwardRejected(e))
  {
    if observer.None? then Skipped
    else
      var source := if Truthy(store.options) then store.options else options;
      match Deqrlify(resolve, source)
      case Ok(o) => Forwarded(o)
      case Err(e) => ForwardRejected(e)
  }

  /** With the encoder as written, the store write at mount re-runs the
      option-change effect on `{}`: the observer, built with the forced
      defaulted options, is handed `{}` instead (no query key, no query
      function, no forced options), whatever the caller's options and however
      references resolve; and no later emission sees a page-param callback. */
  lemma AsWrittenMountForwardsEmptyOptions(engine: Engine, resolve: Resolver, t: ObserverType, store: Store,
                                           options: Value, later: Resolver, pages: Value, d: Direction)
    requires Mount(engine, resolve, t, AsWritten, store).Mounted?
    ensures var m := Mount(engine, resolve, t, AsWritten, store);
            && ForcedKeys <= m.observer.options.Keys
            && OptionsChanged(Some(m.observer), m.store, options, later) == Forwarded(Obj(map[]))
            && HasPage(engine, m.store.options, pages, d) == None
  {
    var m := Mount(engine, resolve, t, AsWritten, store);
    DeqrlifyFields(later, map[]);
    assert Deqrlify(later, Obj(map[])).value.fields.Keys == {};
  }

  /** With the encoder as written, the paginated priming result never says
      there is a next page: its PREV flag still reads the caller's options, but
      its NEXT flag reads the `{}` the mount stored meanwhile, so it is
      `undefined` whatever `getNextPageParam` would have answered. */
  lemma AsWrittenPrimingLosesNextPage(engine: Engine, resolve: Resolver, store: Store)
    requires store.result.None?
    requires Mount(engine, resolve, Infinite, AsWritten, store).Mounted?
    ensures var m := Mount(engine, resolve, Infinite, AsWritten, store);
            var optimistic := engine.getOptimisticResult(m.observer, m.observer.options);
            CanPatch(Infinite, store.options, m.store.options, optimistic) ==>
              var p := PatchFlags(Infinite, engine, store.options, m.store.options, optimistic);
              && m.store.result == Some(Stored(engine, m.observer, m.observer.options, p))
              && p["hasPreviousPage"] == FlagValue(HasPage(engine, store.options, Pages(optimistic), Prev))
              && p["hasNextPage"] == Undef
  {
  }

  /** With the corrected encoder, the stored options decode back to exactly the
      options the observer was built with when deferred references resolve to
      the functions they were built from, so the option-change effect the store
      write triggers hands the observer its own options again. */
  lemma MountedOptionsRoundTrip(engine: Engine, t: ObserverType, store: Store, resolve: Resolver,
                                options: Value)
    requires Mount(engine, resolve, t, Corrected, store).Mounted?
    ensures var m := Mount(engine, resolve, t, Corrected, store);
            && Deqrlify(RecoverChunk, m.store.options) == Ok(Obj(m.observer.options))
            && OptionsChanged(Some(m.observer), m.store, options, RecoverChunk) == Forwarded(Obj(m.observer.options))
  {
    var m := Mount(engine, resolve, t, Corrected, store);
    RoundTripFixed(Obj(m.observer.options));
  }

  /** Encoding keeps the page-param options callable. */
  lemma {:induction false} QrlifyFixedKeepsPageParamsCallable(d: Fields)
    requires PageParamsCallable(Obj(d))
    ensures PageParamsCallable(QrlifyFixed(Obj(d)))
  {
    var q := QrlifyFixed(Obj(d));
    forall key | key in d && key in {PageParamKey(Prev), PageParamKey(Next)}
      ensures CallableOrFalsy(q.fields[key])
    {
    }
  }

  /** After a mount with either encoder, no emission whose `data` can be read
      is dropped, provided the observer's page-param options are callable. */
  lemma EmissionsPatchableAfterMount(engine: Engine, resolve: Resolver, t: ObserverType, enc: Encoding,
                                     store: Store, results: seq<Fields>)
    requires Mount(engine, resolve, t, enc, store).Mounted?
    requires PageParamsCallable(Obj(Mount(engine, resolve, t, enc, store).observer.options))
    requires t == Infinite ==> forall i :: 0 <= i < |results| ==> DataReadable(results[i])
    ensures forall i :: 0 <= i < |results| ==>
              var options := Mount(engine, resolve, t, enc, store).store.options;
              CanPatch(t, options, options, results[i])
  {
    var m := Mount(engine, resolve, t, enc, store);
    if enc == Corrected {
      QrlifyFixedKeepsPageParamsCallable(m.observer.options);
    }
  }

  /** The life of a bridge: start from the initial store, mount, then receive
      `results`. Without a hydrated result and before any emission, the store holds
      the patched optimistic result, whose NEXT flag (paginated variant) comes
      from the options the mount stored; hydrated state that was found is kept
      instead; after emissions, the last one that can be patched is what the
      store holds. */
  lemma Lifecycle(engine: Engine, resolve: Resolver, t: ObserverType, enc: Encoding, options: Value,
                  initialState: Value, getQueryState: (Value, Value) -> Option<Fields>, results: seq<Fields>)
    requires Truthy(initialState) ==> CanReadProps(options)
    requires Mount(engine, resolve, t, enc, InitialStore(options, initialState, getQueryState)).Mounted?
    ensures var m := Mount(engine, resolve, t, enc, InitialStore(options, initialState, getQueryState));
            var s := Replay(t, engine, m.observer, m.observer.options, m.store, results);
            var optimistic := engine.getOptimisticResult(m.observer, m.observer.options);
            && (results == [] && InitialStore(options, initialState, getQueryState).result.None? &&
                CanPatch(t, options, m.store.options, optimistic) ==>
                  s.result == Some(Stored(engine, m.observer, m.observer.options,
                                          PatchFlags(t, engine, options, m.store.options, optimistic))))
            && (results == [] && Truthy(initialState) && getQueryState(initialState, QueryKey(options)).Some? ==>
                  s.result == getQueryState(initialState, QueryKey(options)))
            && (results != [] && CanPatch(t, m.store.options, m.store.options, results[|results| - 1]) ==>
                  s.result == Some(Stored(engine, m.observer, m.observer.options,
                                          PatchFlags(t, engine, m.store.options, m.store.options, results[|results| - 1]))))
  {
    var m := Mount(engine, resolve, t, enc, InitialStore(options, initialState, getQueryState));
    if results != [] && CanPatch(t, m.store.options, m.store.options, results[|results| - 1]) {
      LastEmissionWins(t, engine, m.observer, m.observer.options, m.store, results);
    }
  }

  /** A failed mount leaves no observer behind, so no option change is ever
      forwarded; after a successful one, a change is forwarded exactly when its
      options decode. */
  lemma ForwardOnlyAfterMount(engine: Engine, resolve: Resolver, t: ObserverType, enc: Encoding,
                              store: Store, changed: Store, options: Value)
    requires Truthy(changed.options)
    ensures var m := Mount(engine, resolve, t, enc, store);
            var observer := if m.Mounted? then Some(m.observer) else None;
            var r := OptionsChanged(observer, changed, options, resolve);
            && (m.MountRejected? ==> r == Skipped)
            && (m.Mounted? ==> (r.Forwarded? <==> Deqrlify(resolve, changed.options).Ok?))
  {
  }
}

=== FILE: codec.dfy ===
/**
 * The deferred-reference codec: `qrlify` turns every function leaf of a value
 * tree into a deferred reference, and `deqrlify` resolves every deferred
 * reference back, keeping array order and object keys.
 *
 * How a deferred reference resolves is outside this codec, so `deqrlify` takes
 * the resolution procedure as a parameter. The concurrent `Promise.all` of the
 * original is modelled as evaluation of every child, with the outcome of each
 * kept at its own index or key.
 */
module Codec {
  import opened Wrappers
  import opened Values

  /** What calling `resolve()` on a deferred reference settles to. */
  datatype Resolution = Resolved(value: Value) | Rejected(reason: string)

  /** The resolution procedure of deferred references. */
  type Resolver = Callable -> Resolution

  /** The settled outcome of `deqrlify`. A rejection carries every reason that
      could be the first one reported: which rejection wins depends on timing. */
  datatype Decoded = Ok(value: Value) | Err(reasons: set<string>)

  /** The reasons a decode outcome was rejected with; none when it succeeded. */
  function Reasons(d: Decoded): set<string> {
    if d.Err? then d.reasons else {}
  }

  /** Leaves that are neither containers nor functions. */
  predicate IsLeaf(v: Value) {
    v.Undef? || v.Null? || v.Bool? || v.Num? || v.Str?
  }

  /** `qrlify` exactly as written in the bindings: a function becomes a deferred
      reference, scalars and `null` stay, arrays are encoded element by element,
      and every other object becomes `{}` because its entries are read from a
      freshly created arrow function instead of from the object itself. */
  function Qrlify(v: Value): (r: Value)
    ensures v.Func? ==> r == Func(Qrl(v.fn))
    ensures IsLeaf(v) ==> r == v
    ensures v.Arr? ==> r.Arr? && |r.items| == |v.items|
                       && forall i :: 0 <= i < |v.items| ==> r.items[i] == Qrlify(v.items[i])
    ensures v.Obj? ==> r == Obj(map[])
  {
    match v
    case Func(f) => Func(Qrl(f))
    case Arr(xs) => Arr(seq(|xs|, i requires 0 <= i < |xs| => Qrlify(xs[i])))
    case Obj(_) => Obj(map[])
    case _ => v
  }

  /** `qrlify` as its declared type promises: like `Qrlify`, but a plain object
      keeps exactly its keys, each value encoded. */
  function QrlifyFixed(v: Value): (r: Value)
    ensures v.Func? ==> r == Func(Qrl(v.fn))
    ensures IsLeaf(v) ==> r == v
    ensures v.Arr? ==> r.Arr? && |r.items| == |v.items|
                       && forall i :: 0 <= i < |v.items| ==> r.items[i] == QrlifyFixed(v.items[i])
    ensures v.Obj? ==> r.Obj? && r.fields.Keys == v.fields.Keys
                       && forall k :: k in v.fields ==> r.fields[k] == QrlifyFixed(v.fields[k])
  {
    match v
    case Func(f) => Func(Qrl(f))
    case Arr(xs) => Arr(seq(|xs|, i requires 0 <= i < |xs| => QrlifyFixed(xs[i])))
    case Obj(m) => Obj(map k | k in m :: QrlifyFixed(m[k]))
    case _ => v
  }

  /** Settles an array of decoded children the way `Promise.all` does: the
      values in order when every child succeeded, otherwise a rejection. */
  function AllItems(ds: seq<Decoded>): (r: Decoded)
    requires forall i :: 0 <= i < |ds| && ds[i].Err? ==> ds[i].reasons != {}
    ensures r.Err? ==> r.reasons != {}
    ensures r.Ok? <==> forall i :: 0 <= i < |ds| ==> ds[i].Ok?
    ensures r.Ok? ==> r.value.Arr? && |r.value.items| == |ds|
                      && forall i :: 0 <= i < |ds| ==> ds[i] == Ok(r.value.items[i])
    ensures forall e :: e in Reasons(r) <==> exists i :: 0 <= i < |ds| && e in Reasons(ds[i])
  {
    if forall i :: 0 <= i < |ds| ==> ds[i].Ok? then
      Ok(Arr(seq(|ds|, i requires 0 <= i < |ds| => ds[i].value)))
    else
      var reasons := set i, e | 0 <= i < |ds| && e in Reasons(ds[i]) :: e;
      assert reasons != {} by {
        var i0 :| 0 <= i0 < |ds| && ds[i0].Err?;
        var e0 :| e0 in ds[i0].reasons;
        assert e0 in Reasons(ds[i0]);
      }
      Err(reasons)
  }

  /** Settles the decoded values of an object's entries: the object with the
      same keys when every entry succeeded, otherwise a rejection. */
  function AllFields(ds: map<string, Decoded>): (r: Decoded)
    requires forall k :: k in ds && ds[k].Err? ==> ds[k].reasons != {}
    ensures r.Err? ==> r.reasons != {}
    ensures r.Ok? <==> forall k :: k in ds ==> ds[k].Ok?
    ensures r.Ok? ==> r.value.Obj? && r.value.fields.Keys == ds.Keys
                      && forall k :: k in ds ==> ds[k] == Ok(r.value.fields[k])
    ensures forall e :: e in Reasons(r) <==> exists k :: k in ds && e in Reasons(ds[k])
  {
    if forall k :: k in ds ==> ds[k].Ok? then
      Ok(Obj(map k | k in ds :: ds[k].value))
    else
      var reasons := set k, e | k in ds && e in Reasons(ds[k]) :: e;
      assert reasons != {} by {
        var k0 :| k0 in ds && ds[k0].Err?;
        var e0 :| e0 in ds[k0].reasons;
        assert e0 in Reasons(ds[k0]);
      }
      Err(reasons)
  }

  /** `deqrlify`: a deferred reference settles to whatever its `resolve` yields;
      arrays and plain objects are decoded child by child and succeed only when
      every child does; everything else, plain functions included, is returned
      unchanged. */
  function Deqrlify(resolve: Resolver, v: Value): (r: Decoded)
    ensures r.Err? ==> r.reasons != {}
    ensures v.Func? && v.fn.Qrl? ==>
              r == (match resolve(v.fn)
                    case Resolved(x) => Ok(x)
                    case Rejected(e) => Err({e}))
    ensures IsLeaf(v) || (v.Func? && !v.fn.Qrl?) ==> r == Ok(v)
    ensures v.Arr? && r.Ok? ==> r.value.Arr? && |r.value.items| == |v.items|
    ensures v.Obj? && r.Ok? ==> r.value.Obj? && r.value.fields.Keys == v.fields.Keys
  {
    match v
    case Func(f) =>
      if f.Qrl? then
        match resolve(f)
        case Resolved(x) => Ok(x)
        case Rejected(e) => Err({e})
      else Ok(v)
    case Arr(xs) => AllItems(DeqrlifyEach(resolve, xs))
    case Obj(m) =>
      var ds := map k | k in m :: Deqrlify(resolve, m[k]);
      assert ds.Keys == m.Keys;
      assert forall k :: k in m ==> ds[k] == Deqrlify(resolve, m[k]);
      AllFields(ds)
    case _ => Ok(v)
  }

  /** The decoded outcomes of the elements of an array, in order. */
  function DeqrlifyEach(resolve: Resolver, xs: seq<Value>): (ds: seq<Decoded>)
    ensures |ds| == |xs|
    ensures forall i :: 0 <= i < |ds| && ds[i].Err? ==> ds[i].reasons != {}
    decreases xs
  {
    if xs == [] then [] else [Deqrlify(resolve, xs[0])] + DeqrlifyEach(resolve, xs[1..])
  }

  /** Outcome i of `DeqrlifyEach` is the decoded element i. */
  lemma {:induction false} DeqrlifyEachAt(resolve: Resolver, xs: seq<Value>)
    ensures forall i :: 0 <= i < |xs| ==> DeqrlifyEach(resolve, xs)[i] == Deqrlify(resolve, xs[i])
  {
    if xs != [] {
      DeqrlifyEachAt(resolve, xs[1..]);
      var ds := DeqrlifyEach(resolve, xs);
      forall i | 1 <= i < |xs| ensures ds[i] == Deqrlify(resolve, xs[i]) {
        assert xs[1..][i - 1] == xs[i];
      }
    }
  }

  /** Decoding an array: it succeeds iff every element does, and then element
      i of the result is the decoded element i; otherwise it rejects with
      exactly the reasons of the rejected elements. */
  lemma DeqrlifyItems(resolve: Resolver, xs: seq<Value>)
    ensures Deqrlify(resolve, Arr(xs)).Ok? <==> forall i :: 0 <= i < |xs| ==> Deqrlify(resolve, xs[i]).Ok?
    ensures Deqrlify(resolve, Arr(xs)).Ok? ==>
              forall i :: 0 <= i < |xs| ==> Deqrlify(resolve, xs[i]) == Ok(Deqrlify(resolve, Arr(xs)).value.items[i])
    ensures forall e :: e in Reasons(Deqrlify(resolve, Arr(xs))) <==>
              exists i :: 0 <= i < |xs| && e in Reasons(Deqrlify(resolve, xs[i]))
  {
    var ds := DeqrlifyEach(resolve, xs);
    assert Deqrlify(resolve, Arr(xs)) == AllItems(ds);
    DeqrlifyEachAt(resolve, xs);
  }

  /** Decoding an object: it succeeds iff every entry does, and then each key
      maps to its decoded value; otherwise it rejects with exactly the reasons
      of the rejected entries. */
  lemma DeqrlifyFields(resolve: Resolver, m: Fields)
    ensures Deqrlify(resolve, Obj(m)).Ok? <==> forall k :: k in m ==> Deqrlify(resolve, m[k]).Ok?
    ensures Deqrlify(resolve, Obj(m)).Ok? ==>
              forall k :: k in m ==> Deqrlify(resolve, m[k]) == Ok(Deqrlify(resolve, Obj(m)).value.fields[k])
    ensures forall e :: e in Reasons(Deqrlify(resolve, Obj(m))) <==>
              exists k :: k in m && e in Reasons(Deqrlify(resolve, m[k]))
  {
    var ds := map k | k in m :: Deqrlify(resolve, m[k]);
    assert Deqrlify(resolve, Obj(m)) == AllFields(ds);
    assert forall k :: k in m ==> ds[k] == Deqrlify(resolve, m[k]);
  }

  /** The intended resolution, the one the declared `DeQRLify` type assumes: a
      deferred reference yields the function it was built from. */
  function RecoverChunk(c: Callable): Resolution {
    match c
    case Qrl(chunk) => Resolved(Func(chunk))
    case Plain(_) => Resolved(Func(c))
  }

  /** No deferred reference anywhere in the tree. */
  predicate RefFree(v: Value) {
    match v
    case Func(f) => !f.Qrl?
    case Arr(xs) => forall i :: 0 <= i < |xs| ==> RefFree(xs[i])
    case Obj(m) => forall k :: k in m ==> RefFree(m[k])
    case _ => true
  }

  /** No function of either kind anywhere in the tree. */
  predicate FunctionFree(v: Value) {
    match v
    case Func(_) => false
    case Arr(xs) => forall i :: 0 <= i < |xs| ==> FunctionFree(xs[i])
    case Obj(m) => forall k :: k in m ==> FunctionFree(m[k])
    case _ => true
  }

  /** Every object in the tree, at any depth, is `{}`. */
  predicate OnlyEmptyObjects(v: Value) {
    match v
    case Arr(xs) => forall i :: 0 <= i < |xs| ==> OnlyEmptyObjects(xs[i])
    case Obj(m) => m == map[]
    case _ => true
  }

  /** Every function in the tree is a deferred reference. */
  predicate AllDeferred(v: Value) {
    match v
    case Func(f) => f.Qrl?
    case Arr(xs) => forall i :: 0 <= i < |xs| ==> AllDeferred(xs[i])
    case Obj(m) => forall k :: k in m ==> AllDeferred(m[k])
    case _ => true
  }

  /** `deqrlify` is the identity on any tree without deferred references. */
  lemma {:induction false} DeqrlifyIdentityOnRefFree(resolve: Resolver, v: Value)
    requires RefFree(v)
    ensures Deqrlify(resolve, v) == Ok(v)
  {
    match v
    case Arr(xs) =>
      forall i | 0 <= i < |xs| {
        DeqrlifyIdentityOnRefFree(resolve, xs[i]);
      }
      DeqrlifyItems(resolve, xs);
      var r := Deqrlify(resolve, v);
      assert r.value.items == xs;
    case Obj(m) =>
      forall k | k in m {
        DeqrlifyIdentityOnRefFree(resolve, m[k]);
      }
      DeqrlifyFields(resolve, m);
      var r := Deqrlify(resolve, v);
      assert r.value.fields == m;
    case _ =>
  }

  /** The corrected encoder leaves no plain function behind. */
  lemma {:induction false} QrlifyFixedDefersAll(v: Value)
    ensures AllDeferred(QrlifyFixed(v))
  {
    match v
    case Arr(xs) =>
      forall i | 0 <= i < |xs| {
        QrlifyFixedDefersAll(xs[i]);
      }
    case Obj(m) =>
      forall k | k in m {
        QrlifyFixedDefersAll(m[k]);
      }
    case _ =>
  }

  /** Round trip of the corrected encoder: when a deferred reference resolves to
      the function it was built from, decoding undoes encoding on every tree. */
  lemma {:induction false} RoundTripFixed(v: Value)
    ensures Deqrlify(RecoverChunk, QrlifyFixed(v)) == Ok(v)
  {
    var q := QrlifyFixed(v);
    match v
    case Arr(xs) =>
      forall i | 0 <= i < |xs| {
        RoundTripFixed(xs[i]);
      }
      DeqrlifyItems(RecoverChunk, q.items);
      assert Deqrlify(RecoverChunk, q).value.items == xs;
    case Obj(m) =>
      forall k | k in m {
        RoundTripFixed(m[k]);
      }
      DeqrlifyFields(RecoverChunk, q.fields);
      assert Deqrlify(RecoverChunk, q).value.fields == m;
    case _ =>
  }

  /** The corrected encoder changes nothing in a tree without functions. */
  lemma {:induction false} QrlifyFixedIdentityOnFunctionFree(v: Value)
    requires FunctionFree(v)
    ensures QrlifyFixed(v) == v
  {
    match v
    case Arr(xs) =>
      forall i | 0 <= i < |xs| {
        QrlifyFixedIdentityOnFunctionFree(xs[i]);
      }
      assert QrlifyFixed(v).items == xs;
    case Obj(m) =>
      forall k | k in m {
        QrlifyFixedIdentityOnFunctionFree(m[k]);
      }
      assert QrlifyFixed(v).fields == m;
    case _ =>
  }

  /** Round trip without functions: whatever the resolution procedure, decoding
      the corrected encoding of a function-free tree gives the tree back. */
  lemma RoundTripFunctionFree(resolve: Resolver, v: Value)
    requires FunctionFree(v)
    ensures Deqrlify(resolve, QrlifyFixed(v)) == Ok(v)
  {
    QrlifyFixedIdentityOnFunctionFree(v);
    FunctionFreeIsRefFree(v);
    DeqrlifyIdentityOnRefFree(resolve, v);
  }

  /** A tree without functions has no deferred references either. */
  lemma {:induction false} FunctionFreeIsRefFree(v: Value)
    requires FunctionFree(v)
    ensures RefFree(v)
  {
    match v
    case Arr(xs) =>
      forall i | 0 <= i < |xs| {
        FunctionFreeIsRefFree(xs[i]);
      }
    case Obj(m) =>
      forall k | k in m {
        FunctionFreeIsRefFree(m[k]);
      }
    case _ =>
  }

  /** The encoder as written agrees with the corrected one exactly on the trees
      whose objects are all empty. */
  lemma {:induction false} QrlifyAgreesWithFixedIff(v: Value)
    ensures Qrlify(v) == QrlifyFixed(v) <==> OnlyEmptyObjects(v)
  {
    match v
    case Arr(xs) =>
      forall i | 0 <= i < |xs| {
        QrlifyAgreesWithFixedIff(xs[i]);
      }
      if OnlyEmptyObjects(v) {
        assert Qrlify(v).items == QrlifyFixed(v).items;
      } else {
        var i :| 0 <= i < |xs| && !OnlyEmptyObjects(xs[i]);
        assert Qrlify(v).items[i] != QrlifyFixed(v).items[i];
      }
    case Obj(m) =>
      if m != map[] {
        var k :| k in m;
        assert k in QrlifyFixed(v).fields;
      } else {
        assert QrlifyFixed(v).fields == map[];
      }
    case _ =>
  }

  /** The defect as written: every non-empty plain object loses all its keys, so
      no resolution procedure can decode its encoding back to it. */
  lemma QrlifyLosesObjectKeys(resolve: Resolver, m: Fields)
    requires m != map[]
    ensures Deqrlify(resolve, Qrlify(Obj(m))) == Ok(Obj(map[]))
    ensures Deqrlify(resolve, Qrlify(Obj(m))) != Ok(Obj(m))
  {
  }

  /** Following `path` from `v` reaches a deferred reference whose resolution
      rejects with `e`. */
  predicate RejectsAt(resolve: Resolver, v: Value, path: seq<Step>, e: string) {
    var w := At(v, path);
    w.Some? && w.value.Func? && w.value.fn.Qrl? && resolve(w.value.fn) == Rejected(e)
  }

  /** Fail-fast: `deqrlify` rejects with reason `e` exactly when some nested
      deferred reference, at any depth, rejects with `e`. */
  lemma {:induction false} FailFast(resolve: Resolver, v: Value)
    ensures forall e :: e in Reasons(Deqrlify(resolve, v)) <==> exists p :: RejectsAt(resolve, v, p, e)
    decreases v, 1
  {
    match v
    case Arr(xs) => FailFastItems(resolve, xs);
    case Obj(m) => FailFastFields(resolve, m);
    case Func(_) =>
      var d := Deqrlify(resolve, v);
      forall e | e in Reasons(d) ensures RejectsAt(resolve, v, [], e) {
      }
      forall e, p: seq<Step> | RejectsAt(resolve, v, p, e) ensures e in Reasons(d) {
        assert p == [];
      }
    case _ =>
      forall e, p: seq<Step> ensures !RejectsAt(resolve, v, p, e) {
        if p != [] {
          assert At(v, p) == None;
        }
      }
  }

  /** A rejecting path into an array element is a rejecting path into the array. */
  lemma ExtendIndexPath(resolve: Resolver, xs: seq<Value>, i: nat, path: seq<Step>, e: string)
    requires i < |xs| && RejectsAt(resolve, xs[i], path, e)
    ensures RejectsAt(resolve, Arr(xs), [Index(i)] + path, e)
  {
    AtIndex(xs, i, path);
  }

  /** A rejecting path into an object field is a rejecting path into the object. */
  lemma ExtendKeyPath(resolve: Resolver, m: Fields, k: string, path: seq<Step>, e: string)
    requires k in m && RejectsAt(resolve, m[k], path, e)
    ensures RejectsAt(resolve, Obj(m), [Key(k)] + path, e)
  {
    AtKey(m, k, path);
  }

  /** A rejecting path into a container starts with a step to one of its
      children and continues as a rejecting path inside that child. */
  lemma ShortenPath(resolve: Resolver, v: Value, path: seq<Step>, e: string)
    requires v.Arr? || v.Obj?
    requires RejectsAt(resolve, v, path, e)
    ensures path != []
    ensures v.Arr? ==> path[0].Index? && path[0].i < |v.items|
                       && RejectsAt(resolve, v.items[path[0].i], path[1..], e)
    ensures v.Obj? ==> path[0].Key? && path[0].k in v.fields
                       && RejectsAt(resolve, v.fields[path[0].k], path[1..], e)
  {
  }

  /** The array case of `FailFast`. */
  lemma {:induction false} FailFastItems(resolve: Resolver, xs: seq<Value>)
    ensures forall e :: e in Reasons(Deqrlify(resolve, Arr(xs))) <==> exists p :: RejectsAt(resolve, Arr(xs), p, e)
    decreases Arr(xs), 0
  {
    var ds := DeqrlifyEach(resolve, xs);
    assert Deqrlify(resolve, Arr(xs)) == AllItems(ds);
    DeqrlifyEachAt(resolve, xs);
    forall i | 0 <= i < |xs| {
      FailFast(resolve, xs[i]);
    }
    ItemReasonsReachable(resolve, xs, ds);
    ReachableItemReasons(resolve, xs, ds);
  }

  /** Every rejection reason of an array's children is reached by a path. */
  lemma ItemReasonsReachable(resolve: Resolver, xs: seq<Value>, ds: seq<Decoded>)
    requires |ds| == |xs| && forall i :: 0 <= i < |ds| && ds[i].Err? ==> ds[i].reasons != {}
    requires forall i, e :: 0 <= i < |xs| && e in Reasons(ds[i]) ==> exists p :: RejectsAt(resolve, xs[i], p, e)
    ensures forall e :: e in Reasons(AllItems(ds)) ==> exists p :: RejectsAt(resolve, Arr(xs), p, e)
  {
    forall e | e in Reasons(AllItems(ds)) ensures exists p :: RejectsAt(resolve, Arr(xs), p, e) {
      var i :| 0 <= i < |ds| && e in Reasons(ds[i]);
      var p' :| RejectsAt(resolve, xs[i], p', e);
      ExtendIndexPath(resolve, xs, i, p', e);
    }
  }

  /** Every rejection reached by a path into an array is a reason of one of its children. */
  lemma ReachableItemReasons(resolve: Resolver, xs: seq<Value>, ds: seq<Decoded>)
    requires |ds| == |xs| && forall i :: 0 <= i < |ds| && ds[i].Err? ==> ds[i].reasons != {}
    requires forall i, e, p :: 0 <= i < |xs| && RejectsAt(resolve, xs[i], p, e) ==> e in Reasons(ds[i])
    ensures forall e, p :: RejectsAt(resolve, Arr(xs), p, e) ==> e in Reasons(AllItems(ds))
  {
    forall e, p: seq<Step> | RejectsAt(resolve, Arr(xs), p, e) ensures e in Reasons(AllItems(ds)) {
      ShortenPath(resolve, Arr(xs), p, e);
      assert e in Reasons(ds[p[0].i]);
    }
  }

  /** The object case of `FailFast`. */
  lemma {:induction false} FailFastFields(resolve: Resolver, m: Fields)
    ensures forall e :: e in Reasons(Deqrlify(resolve, Obj(m))) <==> exists p :: RejectsAt(resolve, Obj(m), p, e)
    decreases Obj(m), 0
  {
    var ds := map k | k in m :: Deqrlify(resolve, m[k]);
    assert Deqrlify(resolve, Obj(m)) == AllFields(ds);
    forall k | k in m {
      FailFast(resolve, m[k]);
    }
    FieldReasonsReachable(resolve, m, ds);
    ReachableFieldReasons(resolve, m, ds);
  }

  /** Every rejection reason of an object's entries is reached by a path. */
  lemma FieldReasonsReachable(resolve: Resolver, m: Fields, ds: map<string, Decoded>)
    requires ds.Keys == m.Keys && forall k :: k in ds && ds[k].Err? ==> ds[k].reasons != {}
    requires forall k, e :: k in m && e in Reasons(ds[k]) ==> exists p :: RejectsAt(resolve, m[k], p, e)
    ensures forall e :: e in Reasons(AllFields(ds)) ==> exists p :: RejectsAt(resolve, Obj(m), p, e)
  {
    forall e | e in Reasons(AllFields(ds)) ensures exists p :: RejectsAt(resolve, Obj(m), p, e) {
      var k :| k in ds && e in Reasons(ds[k]);
      var p' :| RejectsAt(resolve, m[k], p', e);
      ExtendKeyPath(resolve, m, k, p', e);
    }
  }

  /** Every rejection reached by a path into an object is a reason of one of its entries. */
  lemma ReachableFieldReasons(resolve: Resolver, m: Fields, ds: map<string, Decoded>)
    requires ds.Keys == m.Keys && forall k :: k in ds && ds[k].Err? ==> ds[k].reasons != {}
    requires forall k, e, p :: k in m && RejectsAt(resolve, m[k], p, e) ==> e in Reasons(ds[k])
    ensures forall e, p :: RejectsAt(resolve, Obj(m), p, e) ==> e in Reasons(AllFields(ds))
  {
    forall e, p: seq<Step> | RejectsAt(resolve, Obj(m), p, e) ensures e in Reasons(AllFields(ds)) {
      ShortenPath(resolve, Obj(m), p, e);
      assert e in Reasons(ds[p[0].k]);
    }
  }

  /** Any failure fails the whole: `deqrlify` succeeds exactly when no nested
      deferred reference rejects. */
  lemma DeqrlifyOkIffNoRejection(resolve: Resolver, v: Value)
    ensures Deqrlify(resolve, v).Ok? <==> forall p, e :: !RejectsAt(resolve, v, p, e)
  {
    FailFast(resolve, v);
    var d := Deqrlify(resolve, v);
    if d.Err? {
      var e :| e in d.reasons;
      assert e in Reasons(d);
      var p :| RejectsAt(resolve, v, p, e);
    } else {
      forall p, e ensures !RejectsAt(resolve, v, p, e) {
        assert e !in Reasons(d);
      }
    }
  }
}

=== FILE: values.dfy ===
/** The small optional-value wrapper shared by the other modules. */
module Wrappers {

  /** A value that may be absent; `None` plays the part of JavaScript's `undefined` result. */
  datatype Option<+T> = None | Some(value: T)
}

/**
 * The JavaScript values the query bindings pass around: scalars, `null`,
 * `undefined`, arrays, plain objects and functions. Functions are either plain
 * callables or deferred references (lazily-resolvable handles that expose a
 * callable `resolve` capability).
 */
module Values {
  import opened Wrappers

  /** A function value. `Qrl` is a deferred reference built around `chunk`;
      it is the only kind of function that carries a callable `resolve`. */
  datatype Callable = Plain(id: nat) | Qrl(chunk: Callable)

  /** A JavaScript value tree. Numbers are modelled as integers. */
  datatype Value =
    | Undef
    | Null
    | Bool(b: bool)
    | Num(n: int)
    | Str(s: string)
    | Arr(items: seq<Value>)
    | Obj(fields: map<string, Value>)
    | Func(fn: Callable)

  /** The own enumerable properties of a plain object. */
  type Fields = map<string, Value>

  /** JavaScript truthiness: `undefined`, `null`, `false`, `0` and `''` are falsy;
      every array, object and function is truthy. */
  predicate Truthy(v: Value) {
    match v
    case Undef => false
    case Null => false
    case Bool(b) => b
    case Num(n) => n != 0
    case Str(s) => s != ""
    case _ => true
  }

  /** Reading a property throws on `undefined` and `null` only. */
  predicate CanReadProps(v: Value) {
    !v.Undef? && !v.Null?
  }

  /** `v[key]` for a value whose properties can be read: the field of a plain
      object, `undefined` for a missing field or a value of any other kind. */
  function GetProp(v: Value, key: string): Value
    requires CanReadProps(v)
  {
    if v.Obj? && key in v.fields then v.fields[key] else Undef
  }

  /** One step into a container: an array index or an object key. */
  datatype Step = Index(i: nat) | Key(k: string)

  /** The sub-value reached by following `path` from `v`, if the path exists.
      Paths never go inside a function. */
  function At(v: Value, path: seq<Step>): Option<Value>
    decreases |path|
  {
    if path == [] then Some(v)
    else match (v, path[0])
      case (Arr(xs), Index(i)) => if i < |xs| then At(xs[i], path[1..]) else None
      case (Obj(m), Key(k)) => if k in m then At(m[k], path[1..]) else None
      case _ => None
  }

  /** A function leaf somewhere in `v` at `path`. */
  predicate FuncAt(v: Value, path: seq<Step>) {
    var w := At(v, path);
    w.Some? && w.value.Func?
  }

  /** Following a path through an array element. */
  lemma AtIndex(xs: seq<Value>, i: nat, path: seq<Step>)
    requires i < |xs|
    ensures At(Arr(xs), [Index(i)] + path) == At(xs[i], path)
  {
    assert ([Index(i)] + path)[1..] == path;
  }

  /** Following a path through an object field. */
  lemma AtKey(m: Fields, k: string, path: seq<Step>)
    requires k in m
    ensures At(Obj(m), [Key(k)] + path) == At(m[k], path)
  {
    assert ([Key(k)] + path)[1..] == path;
  }
}
